=== FILE: README.md ===
# Point-cloud capture gates and file writer, modelled in Dafny

Two Android activities receive depth-camera point clouds from the Tango service
and save each accepted frame to its own file:

- `PointCloudGeneratorActivity` (the generator) writes frames while a running
  counter is below a frame budget typed in by the user;
- `ScanningActivity` (the scanning preview) writes frames between a start and a
  finish button press, and keeps a textual log of every write.

Both number accepted frames with a counter, name the file `"points"` followed by
the new counter value, and drain the frame's float buffer into the file, one text
line per value or (in the generator's unused binary routine) four big-endian bytes
per value. This project models those gates, the numbering, the file names, the two
encodings and the scanning log as immutable states with one pure function per
event, and proves their properties.

Files:

- `optional.dfy` — `Option` and its conversion to a sequence.
- `int32.dfy` — Java `int` addition with wrap-around.
- `decimal.dfy` — `Integer.toString` for non-negative values and `Integer.parseInt`.
- `encoding.dfy` — `floatToIntBits`, the big-endian binary encoding and its reader,
  the text encoding and its line reader, and the two buffer-draining loops.
- `writer.dfy` — file names, write attempts and their effect on the output directory.
- `generator.dfy` — the frame-budget gate.
- `budget.dfy` — an overshoot in the generator's click handler, and a corrected handler.
- `scanning.dfy` — the start/stop gate, the counter reset on pause, and the log.

Starting a scan does not reset the counter; only `onPause` resets it, and only
when a service object exists. Frame length is never checked. A failed write shows a
toast and calls `finish()`. The generator's budget is zeroed by the first frame
that arrives after it is used up.

## Model

Source paths are relative to the repository root.

| member | source | states |
|---|---|---|
| Int32.Add | generator/app/src/main/java/cz/zcu/fav/dpoch/point_cloud_generator/PointCloudGeneratorActivity.java:60 | Java `int` addition: the result is in `int` range, congruent to the true sum modulo 2^32, and equal to it when the sum fits |
| Decimal.FromNat | generator/app/src/main/java/cz/zcu/fav/dpoch/point_cloud_generator/PointCloudGeneratorActivity.java:177 | the decimal text of the counter is non-empty, all digits, has no leading zero unless it is "0", and reads back as the counter |
| Decimal.FromNatInjective | generator_preview/app/src/main/java/cz/zcu/fav/dpoch/point_cloud/ScanningActivity.java:328 | two counters have the same decimal text exactly when they are equal |
| Decimal.ParseInt | generator/app/src/main/java/cz/zcu/fav/dpoch/point_cloud_generator/PointCloudGeneratorActivity.java:58-63 | `Integer.parseInt`: accepts an optional sign followed by digits exactly when the signed value fits an `int`, and then returns that value; empty text, a lone sign, any other character and an out-of-range value are the `NumberFormatException` case |
| Decimal.ParseIntOfFromNat | generator/app/src/main/java/cz/zcu/fav/dpoch/point_cloud_generator/PointCloudGeneratorActivity.java:60 | every non-negative `int`, and the negation of every value down to the minimum `int`, parses back from its decimal text |
| Encoding.FloatToIntBits | generator/app/src/main/java/cz/zcu/fav/dpoch/point_cloud_generator/PointCloudGeneratorActivity.java:210 | `writeFloat` writes `floatToIntBits(v)`: NaN stays NaN and becomes the canonical pattern; every other value keeps its bits |
| Encoding.WordBytes | generator/app/src/main/java/cz/zcu/fav/dpoch/point_cloud_generator/PointCloudGeneratorActivity.java:210 | a 32-bit word becomes four bytes, most significant first, which read back to the same word |
| Encoding.BinaryEncode | generator/app/src/main/java/cz/zcu/fav/dpoch/point_cloud_generator/PointCloudGeneratorActivity.java:208-211 | the binary file of a frame is exactly four bytes per buffered value |
| Encoding.BinaryRoundTrip | generator/app/src/main/java/cz/zcu/fav/dpoch/point_cloud_generator/PointCloudGeneratorActivity.java:209-211 | reading the binary file back four bytes at a time yields the buffer's values in order, NaNs canonicalised |
| Encoding.NaNFreeBinaryRoundTrip | generator/app/src/main/java/cz/zcu/fav/dpoch/point_cloud_generator/PointCloudGeneratorActivity.java:209-211 | for NaN-free buffers the binary round trip is bit-exact, including -0.0 and subnormals |
| Encoding.DrainBinary | generator/app/src/main/java/cz/zcu/fav/dpoch/point_cloud_generator/PointCloudGeneratorActivity.java:208-211 | the `hasRemaining`/`get` loop drains the whole buffer in order and emits exactly the binary encoding |
| Encoding.TextEncode | generator/app/src/main/java/cz/zcu/fav/dpoch/point_cloud_generator/PointCloudGeneratorActivity.java:185-187 | the text file of a frame is empty exactly when the frame is, and otherwise ends with a line separator; it holds at least one character per value |
| Encoding.TextLinesRoundTrip | generator/app/src/main/java/cz/zcu/fav/dpoch/point_cloud_generator/PointCloudGeneratorActivity.java:184-187 | reading the text file back line by line yields one line per buffered value, in buffer order, each the formatted value |
| Encoding.DrainText | generator_preview/app/src/main/java/cz/zcu/fav/dpoch/point_cloud/ScanningActivity.java:336-340 | the `hasRemaining`/`println` loop drains the whole buffer in order and emits exactly the text encoding |
| Writer.FileName | generator/app/src/main/java/cz/zcu/fav/dpoch/point_cloud_generator/PointCloudGeneratorActivity.java:177 | a file name is `points` followed by digits from which the sequence number reads back |
| Writer.FileNameInjective | generator/app/src/main/java/cz/zcu/fav/dpoch/point_cloud_generator/PointCloudGeneratorActivity.java:201 | distinct sequence numbers give distinct file names, and equal names mean equal numbers |
| Writer.Write | generator/app/src/main/java/cz/zcu/fav/dpoch/point_cloud_generator/PointCloudGeneratorActivity.java:173-191 | a write takes the incremented counter as its number and names its file after it whatever the outcome; a text write carries the text encoding of the frame, and a binary write carries bytes that read back as the frame's values with NaNs canonicalised |
| Writer.Apply | generator/app/src/main/java/cz/zcu/fav/dpoch/point_cloud_generator/PointCloudGeneratorActivity.java:183 | a completed write leaves its file holding exactly its payload; a failed open leaves the directory as it was; no other file is created, removed or changed |
| Writer.StoreDistinct | generator/app/src/main/java/cz/zcu/fav/dpoch/point_cloud_generator/PointCloudGeneratorActivity.java:181-188 | for writes with distinct names, every completed write's file holds exactly its payload afterwards and every file no write names is untouched |
| Generator.OnClick | generator/app/src/main/java/cz/zcu/fav/dpoch/point_cloud_generator/PointCloudGeneratorActivity.java:56-65 | unparsable input changes nothing; a number n sets the budget to the `int` value congruent to counter + budget + n modulo 2^32, which is that sum itself whenever it fits an `int`; the counter is never touched |
| Generator.OnPointCloudAvailable | generator/app/src/main/java/cz/zcu/fav/dpoch/point_cloud_generator/PointCloudGeneratorActivity.java:153-159 | a frame is written if and only if counter < budget; a write raises the counter by one and names the file after the new value; a rejected frame only zeroes the budget; the remaining budget drops by one or stays zero |
| Generator.RunNumbering | generator/app/src/main/java/cz/zcu/fav/dpoch/point_cloud_generator/PointCloudGeneratorActivity.java:173-177 | over any run the counter never decreases, stays within `int` range, ends as many above its start as there were writes, and the k-th write has number counter + k |
| Generator.RunNamesDistinct | generator/app/src/main/java/cz/zcu/fav/dpoch/point_cloud_generator/PointCloudGeneratorActivity.java:175-177 | no two writes of one activity instance share a file name |
| Generator.RunFilesIntact | generator/app/src/main/java/cz/zcu/fav/dpoch/point_cloud_generator/PointCloudGeneratorActivity.java:177-188 | after any run, every completed write's file holds exactly its payload and that payload is the text encoding of the buffer of a frame event of the run whose outcome is completed; nothing is overwritten |
| Generator.RunWritesEncodeFrames | generator/app/src/main/java/cz/zcu/fav/dpoch/point_cloud_generator/PointCloudGeneratorActivity.java:154-156 | every write of a run has the payload (text encoding of the buffer) and outcome of some frame event of that run |
| Generator.RunSplit | generator/app/src/main/java/cz/zcu/fav/dpoch/point_cloud_generator/PointCloudGeneratorActivity.java:153-159 | events are handled one after another: running two event sequences in turn gives the same final state as running their concatenation, and the writes of the second follow those of the first |
| Generator.AcceptedFrameWrite | generator/app/src/main/java/cz/zcu/fav/dpoch/point_cloud_generator/PointCloudGeneratorActivity.java:154-156 | the i-th event, a point cloud arriving while counter < budget, produces the write that directly follows the writes of the earlier events: it has the next number, that frame's text encoding and that frame's outcome; a point cloud arriving at a closed gate adds no write |
| Generator.IdleUntilClicked | generator/app/src/main/java/cz/zcu/fav/dpoch/point_cloud_generator/PointCloudGeneratorActivity.java:44-45 | both fields start at zero, a valid state, so point clouds arriving before any click write nothing and change nothing |
| Generator.FramesConsumeBudget | generator/app/src/main/java/cz/zcu/fav/dpoch/point_cloud_generator/PointCloudGeneratorActivity.java:154-158 | k frames write min(remaining budget, k) files, and once more frames arrive than the budget allows the budget is zero |
| Generator.ExactlyNWrites | generator/app/src/main/java/cz/zcu/fav/dpoch/point_cloud_generator/PointCloudGeneratorActivity.java:154-157 | from a zero budget, a click with n >= 0 followed by k frames writes exactly min(n, k) files, and the first frame after the n-th write zeroes the budget |
| Generator.NegativeInputWritesNothing | generator/app/src/main/java/cz/zcu/fav/dpoch/point_cloud_generator/PointCloudGeneratorActivity.java:60 | from a zero budget, a click with a negative number writes no file at all |
| Generator.FailedWriteConsumesNumber | generator/app/src/main/java/cz/zcu/fav/dpoch/point_cloud_generator/PointCloudGeneratorActivity.java:175-191 | the counter is incremented before the `try`, so a failed write consumes its number exactly as a completed one does |
| BudgetFinding.ClickAfterExhaustionOvershoots | generator/app/src/main/java/cz/zcu/fav/dpoch/point_cloud_generator/PointCloudGeneratorActivity.java:60 | as written, a click with n after a budget of c was used up, before the next frame zeroes it, lets min(c + n, k) of k frames be written |
| BudgetFinding.OvershootExample | generator/app/src/main/java/cz/zcu/fav/dpoch/point_cloud_generator/PointCloudGeneratorActivity.java:60 | counter 3, budget 3, input "2", six frames: five files are written |
| BudgetFinding.OnClickCorrected | generator/app/src/main/java/cz/zcu/fav/dpoch/point_cloud_generator/PointCloudGeneratorActivity.java:56-65 | corrected handler: unparsable input changes nothing, and a number n >= 0 raises the remaining budget by exactly n |
| BudgetFinding.CorrectedClickGrantsExactlyN | generator/app/src/main/java/cz/zcu/fav/dpoch/point_cloud_generator/PointCloudGeneratorActivity.java:154-158 | with the corrected handler, k frames after a click with n write min(remaining + n, k) files, so min(n, k) from any idle gate |
| Scanning.OnResume | generator_preview/app/src/main/java/cz/zcu/fav/dpoch/point_cloud/ScanningActivity.java:88-92 | resuming creates a service object and leaves the gate, counter and log as they were |
| Scanning.DisconnectTango | generator_preview/app/src/main/java/cz/zcu/fav/dpoch/point_cloud/ScanningActivity.java:196-209 | a successful disconnect drops the service object and closes the gate; a throwing one changes nothing |
| Scanning.ResetUI | generator_preview/app/src/main/java/cz/zcu/fav/dpoch/point_cloud/ScanningActivity.java:309-310 | resetting the UI puts the counter back to zero and nothing else |
| Scanning.OnPause | generator_preview/app/src/main/java/cz/zcu/fav/dpoch/point_cloud/ScanningActivity.java:74-82 | with a service object, pausing zeroes the counter and (unless the disconnect throws) closes the gate; without one it changes nothing; the log is never cleared |
| Scanning.StartScanning | generator_preview/app/src/main/java/cz/zcu/fav/dpoch/point_cloud/ScanningActivity.java:290-291 | starting opens the gate and leaves the counter and log alone |
| Scanning.FinishScanning | generator_preview/app/src/main/java/cz/zcu/fav/dpoch/point_cloud/ScanningActivity.java:302-307 | finishing closes the gate, leaves the counter untouched and hands the whole log to the output screen |
| Scanning.OnPointCloudAvailable | generator_preview/app/src/main/java/cz/zcu/fav/dpoch/point_cloud/ScanningActivity.java:162-166 | a frame is written if and only if scanning; otherwise nothing changes; a write raises the counter by one, names the file after it, and appends its report (number, path, name, elapsed ms, 0 ms on a failed open, separator) to the log |
| Scanning.PathEndsWithName | generator_preview/app/src/main/java/cz/zcu/fav/dpoch/point_cloud/ScanningActivity.java:333-334 | the reported path is the name alone without a directory, and otherwise the directory, a `/` and the name, so it always ends with the file name |
| Scanning.LogEntryShape | generator_preview/app/src/main/java/cz/zcu/fav/dpoch/point_cloud/ScanningActivity.java:325-349 | a write's log entry opens with "Writing point cloud " and the write's number in decimal, which reads back as that number and is followed by a space, and closes with the separator line |
| Scanning.StepCounter | generator_preview/app/src/main/java/cz/zcu/fav/dpoch/point_cloud/ScanningActivity.java:309-310 | every event raises the counter by the number of files it writes, except a pause with a service object, which is the only way back to zero |
| Scanning.RunLogAppendOnly | generator_preview/app/src/main/java/cz/zcu/fav/dpoch/point_cloud/ScanningActivity.java:325-349 | over any run the old log is a prefix of the new one, and every message handed to the output screen lies between them |
| Scanning.RunWithoutPauseNumbering | generator_preview/app/src/main/java/cz/zcu/fav/dpoch/point_cloud/ScanningActivity.java:323-328 | between pauses the k-th write has number counter + k and the matching file name, and the counter ends as many above its start as there were writes |
| Scanning.RunWithoutPauseNamesDistinct | generator_preview/app/src/main/java/cz/zcu/fav/dpoch/point_cloud/ScanningActivity.java:328 | between pauses no two writes share a file name |
| Scanning.ClosedGateDropsFrames | generator_preview/app/src/main/java/cz/zcu/fav/dpoch/point_cloud/ScanningActivity.java:163-165 | with the gate closed, any number of frames writes nothing, consumes no number and leaves the log alone |
| Scanning.IdleUntilStarted | generator_preview/app/src/main/java/cz/zcu/fav/dpoch/point_cloud/ScanningActivity.java:39-59 | the activity starts with no service object, the gate closed, counter zero and an empty log, so point clouds arriving before a start write nothing and leave the log empty |
| Scanning.RunOneFrame | generator_preview/app/src/main/java/cz/zcu/fav/dpoch/point_cloud/ScanningActivity.java:163-165 | one point cloud while scanning writes exactly one file, named after the next number, which holds the frame's text encoding when the write completes |
| Scanning.PauseRestartsNames | generator_preview/app/src/main/java/cz/zcu/fav/dpoch/point_cloud/ScanningActivity.java:78-81 | after pause, resume and start, the next frame is written to `points1` again, and a completed write replaces that file's content |
| Scanning.FinishIdempotent | generator_preview/app/src/main/java/cz/zcu/fav/dpoch/point_cloud/ScanningActivity.java:302-306 | finishing a second time changes nothing and hands over the same message |

## Left out

- Tango service lifecycle (configuration, `connect`, listener registration, `isConnected`, display rotation): a closed SDK. Only the frame-arrival callback is modelled, as an event.
- OpenGL preview, texture hand-off and the `AtomicBoolean` frame flag in `ScanningActivity`: rendering on the GL thread, unrelated to capture.
- The disk: the output directory is a map from file name to content. `getExternalFilesDir` is a parameter of the scanning write (`Scanning.Storage.dir`), and the path is the directory, a separator and the name, without `File`'s normalisation.
- Writer.Write: only a failed open is modelled as a failure. On the text path `PrintWriter` swallows later I/O errors (nothing calls `checkError`), so a disk that fills mid-write is reported as a completed write. On the binary path `DataOutputStream` can throw mid-stream and leave a partial file. `Completed` means the file holds the whole payload.
- `Float.toString` (the text of one float): decimal formatting of floating point. It is the parameter `fmt`, and only line count, order and content per line are proved, assuming its output never holds a line separator.
- `writePointCloudBin` is never called by either activity. Its encoding is modelled (`Encoding.BinaryEncode`, `Writer.Encode`), but neither gate uses it.
- Timing (`System.currentTimeMillis`): the scanning write takes the measured duration as a parameter, which the model keeps non-negative (`Storage.elapsedMs` is a `nat`), although `end - start` of two wall-clock readings can be negative when the clock is set back. The generator's own duration is not modelled.
- UI surfaces: toasts, `finish()` after a failed write (the model keeps processing later events), button images and listeners, the counter text view, the generator's `outputText` view (including the wrong-input line, which appends the resource id number rather than the string), and `OutputActivity`, which only displays the handed-over message.
- Cross-thread access: the counters and `isScanning` are touched from the UI and Tango threads without synchronisation. The model runs events as one sequential interleaving.
- Decimal.ParseInt: accepts only ASCII digits, whereas `Integer.parseInt` also accepts other Unicode decimal digits through `Character.digit`.
- Scanning.OnPointCloudAvailable: the counter is unbounded here, whereas the Java `int` would wrap after 2^31 - 1 writes without a pause. The generator's counter provably stays within `int` range (`Generator.Valid`), so no such gap exists there.

## Findings

| source | as written | input that shows it | evidently intended | confidence | as-written member | corrected member |
|---|---|---|---|---|---|---|
| generator/app/src/main/java/cz/zcu/fav/dpoch/point_cloud_generator/PointCloudGeneratorActivity.java:60 | `framesCount = pointCloudsCounter + framesCount + n` adds the counter on top of a budget that already contains it, whenever the budget has not yet been zeroed by a rejected frame | counter 3, budget 3 (three frames just written), input "2", then six frames: five files are written, not two | a click with n grants n more frames on top of what remains | medium, not executed | BudgetFinding.OvershootExample | BudgetFinding.OnClickCorrected |

=== FILE: budget.dfy ===
/** The generator's click handler adds the counter to the budget a second time
    whenever the previous budget has not been zeroed yet. This module exhibits the
    overshoot of the handler as written and proves the evidently intended
    behaviour of a corrected handler: a click with n grants exactly n more frames. */
module BudgetFinding {
  import opened Int32
  import opened Decimal
  import opened Generator

  /** As written: after a budget of c frames has been used up, and before the next
      frame has zeroed it, a click with n grants c + n further frames, not n. */
  lemma {:induction false} ClickAfterExhaustionOvershoots(s: State, input: string, frames: seq<Event>,
                                                           fmt: Encoding.Float32 -> string)
    requires Valid(s) && s.counter == s.framesCount
    requires ParseInt(input).Some? && ParseInt(input).value >= 0
    requires 2 * s.counter + ParseInt(input).value <= MaxInt32
    requires OnlyFrames(frames)
    ensures |Run(s, [ButtonClicked(input)] + frames, fmt).writes| == Min(s.counter + ParseInt(input).value, |frames|)
  {
    var events := [ButtonClicked(input)] + frames;
    var s1 := OnClick(s, input);
    assert events[1..] == frames;
    assert Remaining(s1) == s.counter + ParseInt(input).value;
    FramesConsumeBudget(s1, frames, fmt);
  }

  /** The concrete case: three frames written with a budget of 3, then "2" typed
      before the next frame arrives; six frames follow and five are written. */
  lemma OvershootExample(frames: seq<Event>, fmt: Encoding.Float32 -> string)
    requires OnlyFrames(frames) && |frames| == 6
    ensures |Run(State(3, 3), [ButtonClicked("2")] + frames, fmt).writes| == 5
  {
    ParseIntOfFromNat(2);
    assert FromNat(2) == "2";
    ClickAfterExhaustionOvershoots(State(3, 3), "2", frames, fmt);
  }

  function Max(a: int, b: int): int { if a < b then b else a }

  /** Corrected click handler: n more frames on top of whatever budget remains. */
  function OnClickCorrected(s: State, input: string): (r: State)
    ensures r.counter == s.counter
    ensures ParseInt(input).None? ==> r == s
    ensures Valid(s) ==> Valid(r)
    ensures Valid(s) && ParseInt(input).Some? && ParseInt(input).value >= 0
            && Max(s.counter, s.framesCount) + ParseInt(input).value <= MaxInt32
            ==> Remaining(r) == Remaining(s) + ParseInt(input).value
  {
    match ParseInt(input)
    case None => s
    case Some(n) => s.(framesCount := Add(Max(s.counter, s.framesCount), n))
  }

  /** With the corrected handler a click with n followed by k frames writes exactly
      min(r + n, k) files, r being the budget left before the click; from an idle
      gate (r = 0), whether or not the budget was already zeroed, that is min(n, k). */
  lemma CorrectedClickGrantsExactlyN(s: State, input: string, frames: seq<Event>,
                                     fmt: Encoding.Float32 -> string)
    requires Valid(s)
    requires ParseInt(input).Some? && ParseInt(input).value >= 0
    requires Max(s.counter, s.framesCount) + ParseInt(input).value <= MaxInt32
    requires OnlyFrames(frames)
    ensures |Run(OnClickCorrected(s, input), frames, fmt).writes| == Min(Remaining(s) + ParseInt(input).value, |frames|)
    ensures s.counter >= s.framesCount ==>
      |Run(OnClickCorrected(s, input), frames, fmt).writes| == Min(ParseInt(input).value, |frames|)
  {
    FramesConsumeBudget(OnClickCorrected(s, input), frames, fmt);
  }
}

=== FILE: decimal.dfy ===
/** Decimal text for integers, as Java's string concatenation (`"points" + n`,
    which calls `Integer.toString`) writes it and as `Integer.parseInt` reads it. */
module Decimal {
  import opened Optional
  import opened Int32

  predicate IsDigit(c: char) {
    '0' <= c <= '9'
  }

  predicate AllDigits(s: string) {
    forall i :: 0 <= i < |s| ==> IsDigit(s[i])
  }

  predicate IsSign(c: char) {
    c == '-' || c == '+'
  }

  function DigitValue(c: char): (d: nat)
    requires IsDigit(c)
    ensures d < 10
  {
    c as int - '0' as int
  }

  function DigitChar(d: nat): (c: char)
    requires d < 10
    ensures IsDigit(c) && DigitValue(c) == d
  {
    (d + '0' as int) as char
  }

  /** The number a string of decimal digits denotes (leading zeros allowed). */
  function Value(s: string): nat
    requires AllDigits(s)
    decreases |s|
  {
    if |s| == 0 then 0 else Value(s[..|s| - 1]) * 10 + DigitValue(s[|s| - 1])
  }

  /** `Integer.toString(n)` for a non-negative `n`: at least one digit, no leading
      zero unless the number is zero, and the digits read back as `n`. */
  function FromNat(n: nat): (s: string)
    ensures 1 <= |s|
    ensures AllDigits(s)
    ensures s[0] == '0' ==> n == 0 && s == "0"
    ensures Value(s) == n
    decreases n
  {
    if n < 10 then
      [DigitChar(n)]
    else
      var prefix := FromNat(n / 10);
      var s := prefix + [DigitChar(n % 10)];
      assert s[..|s| - 1] == prefix;
      s
  }

  /** Two numbers have the same decimal text exactly when they are equal. */
  lemma FromNatInjective(a: nat, b: nat)
    ensures FromNat(a) == FromNat(b) <==> a == b
  {
    if FromNat(a) == FromNat(b) {
      assert Value(FromNat(a)) == Value(FromNat(b));
    }
  }

  /** `Integer.parseInt(s)` (radix 10): an optional leading '-' or '+', then one or
      more ASCII digits, whose value must fit in a Java `int`; anything else is the
      `NumberFormatException` case, modelled as `None`. */
  function ParseInt(s: string): (r: Option<int>)
    ensures r.Some? ==> InRange(r.value)
    ensures r.Some? ==>
      || (AllDigits(s) && |s| > 0 && r.value == Value(s))
      || (|s| > 1 && s[0] == '-' && AllDigits(s[1..]) && r.value == -(Value(s[1..]) as int))
      || (|s| > 1 && s[0] == '+' && AllDigits(s[1..]) && r.value == Value(s[1..]))
    ensures |s| == 0 || (|s| == 1 && IsSign(s[0])) ==> r.None?
    ensures (exists i :: 0 < i < |s| && !IsDigit(s[i])) ==> r.None?
    ensures |s| > 0 && !IsDigit(s[0]) && !IsSign(s[0]) ==> r.None?
    ensures |s| > 0 && AllDigits(s) ==> (r.Some? <==> Value(s) <= MaxInt32)
    ensures |s| > 1 && IsSign(s[0]) && AllDigits(s[1..]) ==>
      (r.Some? <==> InRange(if s[0] == '-' then -(Value(s[1..]) as int) else Value(s[1..]) as int))
  {
    if |s| == 0 then None
    else if IsSign(s[0]) then
      if |s| == 1 || !AllDigits(s[1..]) then None
      else
        var v := if s[0] == '-' then -(Value(s[1..]) as int) else Value(s[1..]) as int;
        if InRange(v) then Some(v) else None
    else if !AllDigits(s) then None
    else if Value(s) <= MaxInt32 then Some(Value(s))
    else None
  }

  /** Reading back what `Integer.toString` wrote: every non-negative `int` and every
      negated one (down to the most negative `int`) parses to itself. */
  lemma ParseIntOfFromNat(n: nat)
    ensures n <= MaxInt32 ==> ParseInt(FromNat(n)) == Some(n)
    ensures n <= -MinInt32 ==> ParseInt("-" + FromNat(n)) == Some(-(n as int))
  {
    var s := FromNat(n);
    assert ("-" + s)[1..] == s;
  }
}

=== FILE: encoding.dfy ===
/** The two per-frame encodings of a point-cloud buffer. The buffer is a flat
    sequence of single-precision floats, kept here as their 32-bit patterns.
    - Text: `PrintWriter.println(float)` once per value, in buffer order.
    - Binary: `DataOutputStream.writeFloat` once per value: the four bytes of
      `Float.floatToIntBits(v)`, most significant first. */
module Encoding {

  type Float32 = bv32

  const ExponentMask: bv32 := 0x7f80_0000
  const MantissaMask: bv32 := 0x007f_ffff
  const CanonicalNaN: bv32 := 0x7fc0_0000

  predicate IsNaN(f: Float32) {
    f & ExponentMask == ExponentMask && f & MantissaMask != 0
  }

  /** `Float.floatToIntBits`: every NaN collapses to the one canonical NaN pattern,
      every other value keeps its bits (including -0.0 and subnormals). */
  function FloatToIntBits(f: Float32): (b: bv32)
    ensures IsNaN(b) <==> IsNaN(f)
    ensures !IsNaN(f) ==> b == f
    ensures IsNaN(f) ==> b == CanonicalNaN
  {
    if IsNaN(f) then CanonicalNaN else f
  }

  /** `DataInputStream.readInt`: four bytes, most significant first. */
  function ReadWord(bs: seq<bv8>): bv32
    requires |bs| == 4
  {
    ((bs[0] as bv32) << 24) | ((bs[1] as bv32) << 16) | ((bs[2] as bv32) << 8) | (bs[3] as bv32)
  }

  /** `DataOutputStream.writeInt`: the word as four big-endian bytes, which
      `ReadWord` reads back to the same word. */
  function WordBytes(w: bv32): (bs: seq<bv8>)
    ensures |bs| == 4
    ensures ReadWord(bs) == w
    ensures bs[0] == (w >> 24) as bv8
  {
    [(w >> 24) as bv8, ((w >> 16) & 0xff) as bv8, ((w >> 8) & 0xff) as bv8, (w & 0xff) as bv8]
  }

  // ---------------------------------------------------------------- binary

  /** The whole binary file of one frame. */
  function BinaryEncode(ps: seq<Float32>): (bs: seq<bv8>)
    ensures |bs| == 4 * |ps|
  {
    if |ps| == 0 then [] else WordBytes(FloatToIntBits(ps[0])) + BinaryEncode(ps[1..])
  }

  /** Reading a binary file back, four bytes per float. */
  function DecodeBinary(bs: seq<bv8>): (ps: seq<Float32>)
    requires |bs| % 4 == 0
    ensures 4 * |ps| == |bs|
  {
    if |bs| == 0 then [] else [ReadWord(bs[..4])] + DecodeBinary(bs[4..])
  }

  /** The bit patterns `writeFloat` actually emits for a buffer. */
  function CanonicalBits(ps: seq<Float32>): (qs: seq<bv32>)
    ensures |qs| == |ps|
  {
    seq(|ps|, i requires 0 <= i < |ps| => FloatToIntBits(ps[i]))
  }

  predicate NaNFree(ps: seq<Float32>) {
    forall i :: 0 <= i < |ps| ==> !IsNaN(ps[i])
  }

  /** Round trip: reading the binary file back yields the buffer's values in order,
      with NaNs canonicalised. */
  lemma {:induction false} BinaryRoundTrip(ps: seq<Float32>)
    ensures DecodeBinary(BinaryEncode(ps)) == CanonicalBits(ps)
  {
    if |ps| > 0 {
      var bs := BinaryEncode(ps);
      var head := WordBytes(FloatToIntBits(ps[0]));
      assert bs == head + BinaryEncode(ps[1..]);
      assert bs[..4] == head;
      assert bs[4..] == BinaryEncode(ps[1..]);
      BinaryRoundTrip(ps[1..]);
      assert CanonicalBits(ps) == [FloatToIntBits(ps[0])] + CanonicalBits(ps[1..]);
    }
  }

  /** For NaN-free data the binary round trip is exact, bit for bit. */
  lemma NaNFreeBinaryRoundTrip(ps: seq<Float32>)
    requires NaNFree(ps)
    ensures DecodeBinary(BinaryEncode(ps)) == ps
  {
    BinaryRoundTrip(ps);
    assert CanonicalBits(ps) == ps;
  }

  lemma {:induction false} BinaryEncodeAppend(a: seq<Float32>, b: seq<Float32>)
    ensures BinaryEncode(a + b) == BinaryEncode(a) + BinaryEncode(b)
  {
    if |a| > 0 {
      assert (a + b)[1..] == a[1..] + b;
      BinaryEncodeAppend(a[1..], b);
    } else {
      assert a + b == b;
    }
  }

  /** The `while (buffer.hasRemaining()) outputStream.writeFloat(buffer.get())`
      loop: draining the buffer from its start produces the whole binary encoding. */
  method DrainBinary(buffer: seq<Float32>) returns (out: seq<bv8>)
    ensures out == BinaryEncode(buffer)
  {
    out := [];
    var position := 0;
    while position < |buffer|
      invariant 0 <= position <= |buffer|
      invariant out == BinaryEncode(buffer[..position])
      decreases |buffer| - position
    {
      var f := buffer[position];
      BinaryEncodeAppend(buffer[..position], [f]);
      assert buffer[..position + 1] == buffer[..position] + [f];
      out := out + WordBytes(FloatToIntBits(f));
      position := position + 1;
    }
    assert buffer[..position] == buffer;
  }

  // ------------------------------------------------------------------ text

  /** The whole text file of one frame: each value formatted by `fmt` (the
      platform's `Float.toString`) and terminated by a line separator. */
  function TextEncode(ps: seq<Float32>, fmt: Float32 -> string): (t: string)
    ensures |ps| == 0 <==> t == ""
    ensures |ps| > 0 ==> t[|t| - 1] == '\n'
    ensures |t| >= |ps|
  {
    if |ps| == 0 then "" else fmt(ps[0]) + "\n" + TextEncode(ps[1..], fmt)
  }

  /** The lines a reader expects: one formatted value per buffer entry. */
  function Lines(ps: seq<Float32>, fmt: Float32 -> string): (ls: seq<string>)
    ensures |ls| == |ps|
  {
    seq(|ps|, i requires 0 <= i < |ps| => fmt(ps[i]))
  }

  /** Index of the first line separator, or the length when there is none. */
  function LineEnd(t: string): (k: nat)
    ensures k <= |t|
    ensures k < |t| ==> t[k] == '\n'
    ensures forall j :: 0 <= j < k ==> t[j] != '\n'
  {
    if |t| == 0 || t[0] == '\n' then 0 else 1 + LineEnd(t[1..])
  }

  /** The lines of a text split at each '\n', without their separators (what
      `BufferedReader.readLine` returns for a text that holds no '\r'). */
  function SplitLines(t: string): seq<string>
    decreases |t|
  {
    if |t| == 0 then []
    else
      var k := LineEnd(t);
      if k == |t| then [t] else [t[..k]] + SplitLines(t[k + 1..])
  }

  predicate NoSeparator(line: string) {
    forall i :: 0 <= i < |line| ==> line[i] != '\n'
  }

  ghost predicate SingleLine(fmt: Float32 -> string) {
    forall f {:trigger fmt(f)} :: NoSeparator(fmt(f))
  }

  lemma SingleLineAt(fmt: Float32 -> string, f: Float32)
    requires SingleLine(fmt)
    ensures NoSeparator(fmt(f))
  {
  }

  /** Reading the text file back line by line yields exactly one line per value,
      in buffer order, provided the formatter never emits a line separator
      (`Float.toString` does not). */
  lemma {:induction false} TextLinesRoundTrip(ps: seq<Float32>, fmt: Float32 -> string)
    requires SingleLine(fmt)
    ensures SplitLines(TextEncode(ps, fmt)) == Lines(ps, fmt)
  {
    if |ps| > 0 {
      var line := fmt(ps[0]);
      var rest := TextEncode(ps[1..], fmt);
      var t := line + "\n" + rest;
      SingleLineAt(fmt, ps[0]);
      assert t[|line|] == '\n';
      var k := LineEnd(t);
      assert k == |line|;
      assert t[..k] == line;
      assert t[k + 1..] == rest;
      TextLinesRoundTrip(ps[1..], fmt);
      assert Lines(ps, fmt) == [line] + Lines(ps[1..], fmt);
    }
  }

  lemma {:induction false} TextEncodeAppend(a: seq<Float32>, b: seq<Float32>, fmt: Float32 -> string)
    ensures TextEncode(a + b, fmt) == TextEncode(a, fmt) + TextEncode(b, fmt)
  {
    if |a| > 0 {
      assert (a + b)[1..] == a[1..] + b;
      TextEncodeAppend(a[1..], b, fmt);
    } else {
      assert a + b == b;
    }
  }

  /** One more value drained extends the text by its line. */
  lemma TextEncodeSnoc(ps: seq<Float32>, i: nat, fmt: Float32 -> string)
    requires i < |ps|
    ensures TextEncode(ps[..i + 1], fmt) == TextEncode(ps[..i], fmt) + (fmt(ps[i]) + "\n")
  {
    assert ps[..i + 1] == ps[..i] + [ps[i]];
    TextEncodeAppend(ps[..i], [ps[i]], fmt);
    assert TextEncode([ps[i]], fmt) == fmt(ps[i]) + "\n" + TextEncode([], fmt);
  }

  /** The `while (buffer.hasRemaining()) writer.println(buffer.get())` loop:
      draining the buffer from its start produces the whole text encoding. */
  method DrainText(buffer: seq<Float32>, fmt: Float32 -> string) returns (out: string)
    ensures out == TextEncode(buffer, fmt)
  {
    out := "";
    var position := 0;
    while position < |buffer|
      invariant 0 <= position <= |buffer|
      invariant out == TextEncode(buffer[..position], fmt)
      decreases |buffer| - position
    {
      TextEncodeSnoc(buffer, position, fmt);
      out := out + (fmt(buffer[position]) + "\n");
      position := position + 1;
    }
    assert buffer[..position] == buffer;
  }
}

=== FILE: generator.dfy ===
/** The frame-budget gate of the point-cloud generator activity. The user types a
    number and presses the button; point clouds are then written while the
    running counter is below the budget `framesCount`. The first frame that
    arrives after the budget is used up resets the budget to zero. */
module Generator {
  import opened Optional
  import opened Int32
  import opened Decimal
  import opened Encoding
  import opened Writer

  /** The two `int` fields of the activity. */
  datatype State = State(counter: nat, framesCount: int)

  /** Both fields stay within Java `int` range; for the counter this is a fact about
      the gate (it only increments below `framesCount`), not an assumption. */
  predicate Valid(s: State) {
    s.counter <= MaxInt32 && InRange(s.framesCount)
  }

  const Initial: State := State(0, 0)

  datatype Event =
    | ButtonClicked(input: string)
    | PointCloudAvailable(points: seq<Float32>, outcome: Outcome)

  datatype Reaction = Reaction(state: State, write: Option<Attempt>)

  datatype Trace = Trace(state: State, writes: seq<Attempt>)

  /** How many more frames the gate will accept before it closes. */
  function Remaining(s: State): nat
  {
    if s.counter < s.framesCount then s.framesCount - s.counter else 0
  }

  /** The button handler: `framesCount = pointCloudsCounter + framesCount +
      Integer.parseInt(input)` in `int` arithmetic; when the text does not parse,
      the exception is caught and neither field changes. */
  function OnClick(s: State, input: string): (r: State)
    ensures r.counter == s.counter
    ensures ParseInt(input).Some? ==> InRange(r.framesCount)
    ensures ParseInt(input).None? ==> r == s
    ensures ParseInt(input).Some? ==>
      (s.counter + s.framesCount + ParseInt(input).value - r.framesCount) % Modulus == 0
    ensures ParseInt(input).Some? && InRange(s.counter + s.framesCount + ParseInt(input).value)
            ==> r.framesCount == s.counter + s.framesCount + ParseInt(input).value
    ensures Valid(s) ==> Valid(r)
  {
    match ParseInt(input)
    case None => s
    case Some(n) => s.(framesCount := Add(Add(s.counter, s.framesCount), n))
  }

  /** `onPointCloudAvailable`: below the budget the frame is written as text under
      the next sequence number, whether or not the write succeeds; otherwise nothing
      is written and the budget drops to zero. */
  function OnPointCloudAvailable(s: State, points: seq<Float32>, outcome: Outcome,
                                 fmt: Float32 -> string): (r: Reaction)
    ensures r.write.Some? <==> s.counter < s.framesCount
    ensures r.write.Some? ==>
      && r.state == s.(counter := s.counter + 1)
      && r.write.value.seqNo == r.state.counter
      && r.write.value.name == FileName(r.state.counter)
      && r.write.value.payload == TextFile(TextEncode(points, fmt))
      && r.write.value.outcome == outcome
    ensures r.write.None? ==> r.state == s.(framesCount := 0)
    ensures Valid(s) ==> Valid(r.state)
    ensures Remaining(r.state) == if Remaining(s) > 0 then Remaining(s) - 1 else 0
  {
    if s.counter < s.framesCount then
      Reaction(s.(counter := s.counter + 1), Some(Write(s.counter, points, Text, fmt, outcome)))
    else if s.framesCount != 0 then
      Reaction(s.(framesCount := 0), None)
    else
      Reaction(s, None)
  }

  function Step(s: State, e: Event, fmt: Float32 -> string): Reaction
  {
    match e
    case ButtonClicked(input) => Reaction(OnClick(s, input), None)
    case PointCloudAvailable(points, outcome) => OnPointCloudAvailable(s, points, outcome, fmt)
  }

  /** The activity's reaction to a sequence of events, one at a time. */
  function Run(s: State, events: seq<Event>, fmt: Float32 -> string): Trace
    decreases |events|
  {
    if |events| == 0 then Trace(s, [])
    else
      var r := Step(s, events[0], fmt);
      var t := Run(r.state, events[1..], fmt);
      Trace(t.state, ToSeq(r.write) + t.writes)
  }

  /** The counter never decreases and is never reset: it ends exactly as many above
      its start as there were writes, and the k-th write carries the number
      `counter + k` and the matching file name. */
  lemma {:induction false} RunNumbering(s: State, events: seq<Event>, fmt: Float32 -> string)
    requires Valid(s)
    ensures Valid(Run(s, events, fmt).state)
    ensures Run(s, events, fmt).state.counter == s.counter + |Run(s, events, fmt).writes|
    ensures NumberedFrom(Run(s, events, fmt).writes, s.counter)
    decreases |events|
  {
    if |events| > 0 {
      var r := Step(s, events[0], fmt);
      RunUnfold(s, events, fmt);
      RunNumbering(r.state, events[1..], fmt);
      NumberedCons(r.write, Run(r.state, events[1..], fmt).writes, s.counter);
    }
  }

  /** No two writes of one activity instance share a file name. */
  lemma RunNamesDistinct(s: State, events: seq<Event>, fmt: Float32 -> string)
    requires Valid(s)
    ensures DistinctNames(Run(s, events, fmt).writes)
  {
    RunNumbering(s, events, fmt);
    NumberedDistinct(Run(s, events, fmt).writes, s.counter);
  }

  /** One step of a run: the first event's write, then the rest of the run. */
  lemma RunUnfold(s: State, events: seq<Event>, fmt: Float32 -> string)
    requires |events| > 0
    ensures Run(s, events, fmt).state == Run(Step(s, events[0], fmt).state, events[1..], fmt).state
    ensures Run(s, events, fmt).writes
         == ToSeq(Step(s, events[0], fmt).write) + Run(Step(s, events[0], fmt).state, events[1..], fmt).writes
  {
  }

  /** A run of one event is that event's reaction. */
  lemma RunSingle(s: State, e: Event, fmt: Float32 -> string)
    ensures Run(s, [e], fmt).state == Step(s, e, fmt).state
    ensures Run(s, [e], fmt).writes == ToSeq(Step(s, e, fmt).write)
  {
    assert [e][1..] == [];
    var r := Step(s, e, fmt);
    assert ToSeq(r.write) + [] == ToSeq(r.write);
  }

  /** The tail of a concatenation whose first part is non-empty. */
  lemma ConcatTail(a: seq<Event>, b: seq<Event>)
    requires |a| > 0
    ensures (a + b)[0] == a[0] && (a + b)[1..] == a[1..] + b
  {
  }

  /** Appending sequences of writes is associative. */
  lemma AppendAssoc(x: seq<Attempt>, y: seq<Attempt>, z: seq<Attempt>)
    ensures x + (y + z) == x + y + z
  {
  }

  /** Running two event sequences one after the other ends in the same state as
      running their concatenation. */
  lemma {:induction false} RunSplitState(s: State, a: seq<Event>, b: seq<Event>, fmt: Float32 -> string)
    ensures Run(s, a + b, fmt).state == Run(Run(s, a, fmt).state, b, fmt).state
    decreases |a|
  {
    if |a| == 0 {
      assert a + b == b;
    } else {
      ConcatTail(a, b);
      RunUnfold(s, a + b, fmt);
      RunUnfold(s, a, fmt);
      RunSplitState(Step(s, a[0], fmt).state, a[1..], b, fmt);
    }
  }

  /** Running two event sequences one after the other is running their
      concatenation: the writes of the second follow those of the first. */
  lemma {:induction false} RunSplit(s: State, a: seq<Event>, b: seq<Event>, fmt: Float32 -> string)
    ensures Run(s, a + b, fmt).state == Run(Run(s, a, fmt).state, b, fmt).state
    ensures Run(s, a + b, fmt).writes == Run(s, a, fmt).writes + Run(Run(s, a, fmt).state, b, fmt).writes
    decreases |a|
  {
    RunSplitState(s, a, b, fmt);
    if |a| == 0 {
      assert a + b == b;
    } else {
      var r := Step(s, a[0], fmt);
      ConcatTail(a, b);
      RunUnfold(s, a + b, fmt);
      RunUnfold(s, a, fmt);
      RunSplit(r.state, a[1..], b, fmt);
      var mid := Run(r.state, a[1..], fmt);
      AppendAssoc(ToSeq(r.write), mid.writes, Run(mid.state, b, fmt).writes);
    }
  }

  /** The i-th event is a point cloud that reaches the gate while it is open exactly
      when it produces the next write: that write follows the writes of the earlier
      events, has the next number, and carries this frame's text encoding and
      outcome. A point cloud that finds the gate closed writes nothing. */
  lemma AcceptedFrameWrite(s: State, events: seq<Event>, i: nat, fmt: Float32 -> string)
    requires i < |events| && events[i].PointCloudAvailable?
    ensures var before := Run(s, events[..i], fmt);
      var after := Run(s, events[..i + 1], fmt);
      && (before.state.counter < before.state.framesCount ==>
            && |before.writes| < |Run(s, events, fmt).writes|
            && WrittenFrom(Run(s, events, fmt).writes[|before.writes|], events[i], fmt)
            && Run(s, events, fmt).writes[|before.writes|].seqNo == before.state.counter + 1)
      && (before.state.counter >= before.state.framesCount ==> after.writes == before.writes)
  {
    var before := Run(s, events[..i], fmt);
    var e := events[i];
    if before.state.counter < before.state.framesCount {
      assert events[..i] + events[i..] == events;
      RunSplit(s, events[..i], events[i..], fmt);
      assert events[i..][0] == e;
      RunUnfold(before.state, events[i..], fmt);
    } else {
      assert events[..i + 1] == events[..i] + [e];
      RunSplit(s, events[..i], [e], fmt);
      RunSingle(before.state, e, fmt);
    }
  }

  /** The write `a` has the payload and outcome of the point cloud `e`: its payload
      is the text encoding of the frame's buffer and its outcome is the frame's. */
  predicate WrittenFrom(a: Attempt, e: Event, fmt: Float32 -> string) {
    && e.PointCloudAvailable?
    && a.payload == TextFile(TextEncode(e.points, fmt))
    && a.outcome == e.outcome
  }

  /** The write `a` has the payload and outcome of some point cloud in `events`. */
  predicate FromSomeFrame(a: Attempt, events: seq<Event>, fmt: Float32 -> string) {
    exists i :: 0 <= i < |events| && WrittenFrom(a, events[i], fmt)
  }

  /** Each write in `w` has the payload and outcome of some point cloud in `events`. */
  predicate FromFrames(w: seq<Attempt>, events: seq<Event>, fmt: Float32 -> string) {
    forall k :: 0 <= k < |w| ==> FromSomeFrame(w[k], events, fmt)
  }

  /** Writes matching the frames of a tail also match frames of the whole sequence. */
  lemma FromFramesTail(w: seq<Attempt>, events: seq<Event>, fmt: Float32 -> string)
    requires |events| > 0 && FromFrames(w, events[1..], fmt)
    ensures FromFrames(w, events, fmt)
  {
    forall k | 0 <= k < |w|
      ensures FromSomeFrame(w[k], events, fmt)
    {
      var j :| 0 <= j < |events[1..]| && WrittenFrom(w[k], events[1..][j], fmt);
      var i := j + 1;
      assert events[1..][j] == events[i];
      assert 0 <= i < |events| && WrittenFrom(w[k], events[i], fmt);
    }
  }

  /** A write matching the first event, in front of writes matching frames. */
  lemma FromFramesPrepend(a: Attempt, w: seq<Attempt>, events: seq<Event>, fmt: Float32 -> string)
    requires |events| > 0 && WrittenFrom(a, events[0], fmt) && FromFrames(w, events, fmt)
    ensures FromFrames([a] + w, events, fmt)
  {
    var w' := [a] + w;
    forall k | 0 <= k < |w'|
      ensures FromSomeFrame(w'[k], events, fmt)
    {
      if k == 0 {
        assert WrittenFrom(w'[0], events[0], fmt);
      } else {
        assert w'[k] == w[k - 1];
      }
    }
  }

  /** Every write of a run has the payload and outcome of a point cloud of that run. */
  lemma {:induction false} RunWritesEncodeFrames(s: State, events: seq<Event>, fmt: Float32 -> string)
    ensures FromFrames(Run(s, events, fmt).writes, events, fmt)
    decreases |events|
  {
    if |events| > 0 {
      var r := Step(s, events[0], fmt);
      var rest := Run(r.state, events[1..], fmt).writes;
      RunUnfold(s, events, fmt);
      RunWritesEncodeFrames(r.state, events[1..], fmt);
      FromFramesTail(rest, events, fmt);
      if r.write.Some? {
        FromFramesPrepend(r.write.value, rest, events, fmt);
        assert ToSeq(r.write) == [r.write.value];
      } else {
        assert ToSeq(r.write) + rest == rest;
      }
    } else {
      assert Run(s, events, fmt).writes == [];
    }
  }

  /** Hence nothing is overwritten: after a run, every completed write's file holds
      exactly that write's payload, which is the text encoding of a point cloud of
      the run whose write completed. */
  lemma RunFilesIntact(dir: Directory, s: State, events: seq<Event>, fmt: Float32 -> string)
    requires Valid(s)
    ensures forall a :: a in Run(s, events, fmt).writes && a.outcome == Completed ==>
      a.name in Store(dir, Run(s, events, fmt).writes) && Store(dir, Run(s, events, fmt).writes)[a.name] == a.payload
    ensures forall a :: a in Run(s, events, fmt).writes && a.outcome == Completed ==>
      exists i :: 0 <= i < |events| && events[i].PointCloudAvailable? && events[i].outcome == Completed
        && Store(dir, Run(s, events, fmt).writes)[a.name] == TextFile(TextEncode(events[i].points, fmt))
  {
    var w := Run(s, events, fmt).writes;
    RunNamesDistinct(s, events, fmt);
    StoreDistinct(dir, w);
    RunWritesEncodeFrames(s, events, fmt);
    forall a | a in w && a.outcome == Completed
      ensures exists i :: (0 <= i < |events| && events[i].PointCloudAvailable? && events[i].outcome == Completed
                           && Store(dir, w)[a.name] == TextFile(TextEncode(events[i].points, fmt)))
    {
      var k :| 0 <= k < |w| && w[k] == a;
      var i :| 0 <= i < |events| && WrittenFrom(w[k], events[i], fmt);
      assert events[i].PointCloudAvailable? && events[i].outcome == Completed
        && Store(dir, w)[a.name] == TextFile(TextEncode(events[i].points, fmt));
    }
  }

  predicate OnlyFrames(events: seq<Event>) {
    forall i :: 0 <= i < |events| ==> events[i].PointCloudAvailable?
  }

  function Min(a: nat, b: nat): nat { if a <= b then a else b }

  /** A run of frames alone writes as many of them as the remaining budget allows;
      once more frames arrive than that, the budget has been reset to zero. */
  lemma {:induction false} FramesConsumeBudget(s: State, events: seq<Event>, fmt: Float32 -> string)
    requires OnlyFrames(events)
    ensures |Run(s, events, fmt).writes| == Min(Remaining(s), |events|)
    ensures Run(s, events, fmt).state.counter == s.counter + Min(Remaining(s), |events|)
    ensures |events| > Remaining(s) ==> Run(s, events, fmt).state.framesCount == 0
    decreases |events|
  {
    if |events| > 0 {
      var r := Step(s, events[0], fmt);
      assert OnlyFrames(events[1..]) by {
        forall i | 0 <= i < |events[1..]|
          ensures events[1..][i].PointCloudAvailable?
        {
          assert events[1..][i] == events[i + 1];
        }
      }
      FramesConsumeBudget(r.state, events[1..], fmt);
    }
  }

  /** A freshly created activity writes nothing until the button is clicked:
      both fields start at zero, so every point cloud finds the gate closed. */
  lemma IdleUntilClicked(frames: seq<Event>, fmt: Float32 -> string)
    requires OnlyFrames(frames)
    ensures Valid(Initial)
    ensures Run(Initial, frames, fmt) == Trace(State(0, 0), [])
  {
    FramesConsumeBudget(Initial, frames, fmt);
  }

  /** From an idle budget, one click with a non-negative number n followed by any k
      frames writes exactly min(n, k) files; after n writes the next frame closes
      the gate and zeroes the budget. */
  lemma ExactlyNWrites(s: State, input: string, frames: seq<Event>, fmt: Float32 -> string)
    requires Valid(s) && s.framesCount == 0
    requires ParseInt(input).Some? && ParseInt(input).value >= 0
    requires s.counter + ParseInt(input).value <= MaxInt32
    requires OnlyFrames(frames)
    ensures |Run(s, [ButtonClicked(input)] + frames, fmt).writes| == Min(ParseInt(input).value, |frames|)
    ensures |frames| > ParseInt(input).value ==> Run(s, [ButtonClicked(input)] + frames, fmt).state.framesCount == 0
  {
    var events := [ButtonClicked(input)] + frames;
    var s1 := OnClick(s, input);
    assert events[1..] == frames;
    assert Remaining(s1) == ParseInt(input).value;
    FramesConsumeBudget(s1, frames, fmt);
  }

  /** Clicking with a negative number from an idle budget writes nothing at all. */
  lemma NegativeInputWritesNothing(s: State, input: string, frames: seq<Event>, fmt: Float32 -> string)
    requires Valid(s) && s.framesCount == 0
    requires ParseInt(input).Some? && ParseInt(input).value < 0
    requires OnlyFrames(frames)
    ensures |Run(s, [ButtonClicked(input)] + frames, fmt).writes| == 0
  {
    var events := [ButtonClicked(input)] + frames;
    var s1 := OnClick(s, input);
    assert events[1..] == frames;
    assert Remaining(s1) == 0;
    FramesConsumeBudget(s1, frames, fmt);
  }

  /** A write that fails still consumes its sequence number: the state after a frame
      does not depend on the write's outcome. */
  lemma FailedWriteConsumesNumber(s: State, points: seq<Float32>, fmt: Float32 -> string)
    requires s.counter < s.framesCount
    ensures OnPointCloudAvailable(s, points, OpenFailed, fmt).state
         == OnPointCloudAvailable(s, points, Completed, fmt).state
         == s.(counter := s.counter + 1)
  {
  }
}

=== FILE: int32.dfy ===
/** Java `int` arithmetic: 32-bit two's complement with silent wrap-around. */
module Int32 {

  const MinInt32: int := -0x8000_0000
  const MaxInt32: int := 0x7fff_ffff
  const Modulus: int := 0x1_0000_0000

  predicate InRange(x: int) {
    MinInt32 <= x <= MaxInt32
  }

  /** The Java expression `a + b` on two `int` operands: the mathematical sum reduced
      modulo 2^32 into the signed range. */
  function Add(a: int, b: int): (r: int)
    ensures InRange(r)
    ensures (a + b - r) % Modulus == 0
    ensures InRange(a + b) ==> r == a + b
  {
    var x := a + b - MinInt32;
    var q := x / Modulus;
    assert x == q * Modulus + x % Modulus;
    assert a + b - ((x % Modulus) + MinInt32) == q * Modulus;
    (x % Modulus) + MinInt32
  }
}

=== FILE: optional.dfy ===
/** A value that may be absent: the model's stand-in for Java's `null` results and
    for exceptions that a caller catches and turns into "nothing happened". */
module Optional {

  datatype Option<+T> = None | Some(value: T)

  /** The zero- or one-element sequence holding the value, if any. */
  function ToSeq<T>(o: Option<T>): (s: seq<T>)
    ensures |s| <= 1
    ensures |s| == 1 <==> o.Some?
    ensures o.Some? ==> s[0] == o.value
  {
    match o
    case None => []
    case Some(v) => [v]
  }
}

=== FILE: scanning.dfy ===
/** The start/stop gate of the scanning activity. Point clouds are written while
    `isScanning` holds; each write appends a report to the `outputMessage` log,
    which is handed to the output screen when scanning is finished. The counter
    that numbers the files is reset only when the activity pauses. */
module Scanning {
  import opened Optional
  import opened Decimal
  import opened Encoding
  import opened Writer

  /** `tango != null`, `isScanning`, `pointCloudsCounter` and `outputMessage`. */
  datatype State = State(hasTango: bool, isScanning: bool, counter: nat, log: string)

  /** After `onCreate`: no service object, not scanning, counter zero, empty log. */
  const Initial: State := State(false, false, 0, "")

  /** What the storage collaborator contributes to one write: the directory from
      `getExternalFilesDir` (absent when it returns null), the write's outcome, and
      the measured duration of the drain loop in milliseconds. */
  datatype Storage = Storage(dir: Option<string>, outcome: Outcome, elapsedMs: nat)

  datatype Event =
    | Resumed
    | Paused(disconnectFails: bool)
    | StartPressed
    | FinishPressed
    | PointCloudAvailable(points: seq<Float32>, storage: Storage)

  /** A step's effect: the new state, the file write (if a frame was accepted) and
      the message handed to the output screen (if scanning was finished). */
  datatype Reaction = Reaction(state: State, write: Option<Attempt>, handoff: Option<string>)

  datatype Trace = Trace(state: State, writes: seq<Attempt>, handoffs: seq<string>)

  /** `file.getPath()` for `new File(dir, name)`. */
  function PathOf(dir: Option<string>, name: string): string
  {
    match dir
    case None => name
    case Some(d) => d + "/" + name
  }

  /** The path is the directory (when there is one), a separator, then the name. */
  lemma PathEndsWithName(dir: Option<string>, name: string)
    ensures |PathOf(dir, name)| >= |name| && PathOf(dir, name)[|PathOf(dir, name)| - |name|..] == name
    ensures dir.None? ==> PathOf(dir, name) == name
    ensures dir.Some? ==> (|PathOf(dir, name)| == |dir.value| + 1 + |name|
      && PathOf(dir, name)[..|dir.value|] == dir.value && PathOf(dir, name)[|dir.value|] == '/')
  {
  }

  const Separator: string := "----------------\n"

  const Opening: string := "Writing point cloud "

  /** The three appends one write makes to `outputMessage`: the opening line with
      the number and the path, the report with the name and the time, and the
      separator line. */
  function LogEntry(n: nat, path: string, name: string, elapsedMs: nat): string
  {
    var report := " into " + path + "\n"
      + "Writing of " + name + " is finished and took " + FromNat(elapsedMs) + "ms. \n";
    Opening + FromNat(n) + report + Separator
  }

  /** A log entry opens with the write's number in decimal, from which the number
      reads back, and closes with the separator line. */
  lemma LogEntryShape(n: nat, path: string, name: string, elapsedMs: nat)
    ensures var entry := LogEntry(n, path, name, elapsedMs);
      && |entry| > |Opening| + |FromNat(n)|
      && entry[..|Opening|] == Opening
      && entry[|Opening|..|Opening| + |FromNat(n)|] == FromNat(n)
      && Value(entry[|Opening|..|Opening| + |FromNat(n)|]) == n
      && entry[|Opening| + |FromNat(n)|] == ' '
      && entry[|entry| - |Separator|..] == Separator
  {
    var entry := LogEntry(n, path, name, elapsedMs);
    var num := FromNat(n);
    var report := " into " + path + "\n"
      + "Writing of " + name + " is finished and took " + FromNat(elapsedMs) + "ms. \n";
    var head := Opening + num;
    var body := head + report;
    assert entry == body + Separator;
    assert report[0] == ' ';
    assert entry[..|body|] == body;
    assert body[..|head|] == head;
    assert entry[|Opening|..|head|] == body[|Opening|..|head|] == head[|Opening|..] == num;
    assert entry[|head|] == body[|head|] == report[0];
  }

  /** `onResume` creates a new service object. */
  function OnResume(s: State): (r: State)
    ensures r.hasTango
    ensures r.isScanning == s.isScanning && r.counter == s.counter && r.log == s.log
  {
    s.(hasTango := true)
  }

  /** `disconnectTango`: clears the service and the scanning flag, unless the
      service throws, in which case the handler catches it and nothing changes. */
  function DisconnectTango(s: State, fails: bool): (r: State)
    ensures !fails ==> !r.hasTango && !r.isScanning
    ensures fails ==> r == s
    ensures r.counter == s.counter && r.log == s.log
  {
    if fails then s else s.(hasTango := false, isScanning := false)
  }

  /** `resetUI`: the only place the counter returns to zero. */
  function ResetUI(s: State): (r: State)
    ensures r.counter == 0
    ensures r.hasTango == s.hasTango && r.isScanning == s.isScanning && r.log == s.log
  {
    s.(counter := 0)
  }

  /** `onPause`: with a service object present, disconnect and reset the UI. */
  function OnPause(s: State, disconnectFails: bool): (r: State)
    ensures !s.hasTango ==> r == s
    ensures s.hasTango ==> r.counter == 0
    ensures s.hasTango && !disconnectFails ==> !r.isScanning && !r.hasTango
    ensures disconnectFails ==> r.isScanning == s.isScanning && r.hasTango == s.hasTango
    ensures r.log == s.log
  {
    if s.hasTango then ResetUI(DisconnectTango(s, disconnectFails)) else s
  }

  /** `startScanning` opens the gate. */
  function StartScanning(s: State): (r: State)
    ensures r.isScanning
    ensures r.hasTango == s.hasTango && r.counter == s.counter && r.log == s.log
  {
    s.(isScanning := true)
  }

  /** `finishScanning` closes the gate, leaves the counter alone, and hands the
      whole log so far to the output screen. */
  function FinishScanning(s: State): (r: Reaction)
    ensures !r.state.isScanning
    ensures r.state.hasTango == s.hasTango && r.state.counter == s.counter && r.state.log == s.log
    ensures r.write.None? && r.handoff == Some(s.log)
  {
    Reaction(s.(isScanning := false), None, Some(s.log))
  }

  /** `onPointCloudAvailable`: a frame is written exactly when scanning. Writing
      takes the next number, names the file after it, streams the text encoding and
      appends a report to the log; a failed open reports 0 ms, because the timer
      fields keep their initial zeros. A frame outside scanning changes nothing. */
  function OnPointCloudAvailable(s: State, points: seq<Float32>, storage: Storage,
                                 fmt: Float32 -> string): (r: Reaction)
    ensures r.write.Some? <==> s.isScanning
    ensures !s.isScanning ==> r.state == s
    ensures s.isScanning ==>
      && r.state.counter == s.counter + 1
      && r.state.isScanning && r.state.hasTango == s.hasTango
      && r.write.value.seqNo == r.state.counter
      && r.write.value.name == FileName(r.state.counter)
      && r.write.value.payload == TextFile(TextEncode(points, fmt))
      && r.write.value.outcome == storage.outcome
      && r.state.log == s.log + LogEntry(r.state.counter, PathOf(storage.dir, r.write.value.name),
                                         r.write.value.name,
                                         if storage.outcome == Completed then storage.elapsedMs else 0)
    ensures s.log <= r.state.log
    ensures r.handoff.None?
  {
    if s.isScanning then
      var a := Write(s.counter, points, Text, fmt, storage.outcome);
      var elapsed := if storage.outcome == Completed then storage.elapsedMs else 0;
      var entry := LogEntry(a.seqNo, PathOf(storage.dir, a.name), a.name, elapsed);
      Reaction(s.(counter := a.seqNo, log := s.log + entry), Some(a), None)
    else
      Reaction(s, None, None)
  }

  function Step(s: State, e: Event, fmt: Float32 -> string): Reaction
  {
    match e
    case Resumed => Reaction(OnResume(s), None, None)
    case Paused(fails) => Reaction(OnPause(s, fails), None, None)
    case StartPressed => Reaction(StartScanning(s), None, None)
    case FinishPressed => FinishScanning(s)
    case PointCloudAvailable(points, storage) => OnPointCloudAvailable(s, points, storage, fmt)
  }

  /** The activity's reaction to a sequence of events, one at a time. */
  function Run(s: State, events: seq<Event>, fmt: Float32 -> string): Trace
    decreases |events|
  {
    if |events| == 0 then Trace(s, [], [])
    else
      var r := Step(s, events[0], fmt);
      var t := Run(r.state, events[1..], fmt);
      Trace(t.state, ToSeq(r.write) + t.writes, ToSeq(r.handoff) + t.handoffs)
  }

  /** Every event moves the counter up by the number of files it writes, except a
      pause with a service object present, which puts it back to zero. */
  lemma StepCounter(s: State, e: Event, fmt: Float32 -> string)
    ensures Step(s, e, fmt).state.counter ==
      if e.Paused? && s.hasTango then 0 else s.counter + |ToSeq(Step(s, e, fmt).write)|
  {
  }

  /** The log is append-only: the log at the start is a prefix of every message
      handed to the output screen, and each of those is a prefix of the final log. */
  lemma {:induction false} RunLogAppendOnly(s: State, events: seq<Event>, fmt: Float32 -> string)
    ensures s.log <= Run(s, events, fmt).state.log
    ensures forall i :: 0 <= i < |Run(s, events, fmt).handoffs| ==>
      s.log <= Run(s, events, fmt).handoffs[i] <= Run(s, events, fmt).state.log
    decreases |events|
  {
    if |events| > 0 {
      var r := Step(s, events[0], fmt);
      RunLogAppendOnly(r.state, events[1..], fmt);
    }
  }

  predicate NoPause(events: seq<Event>) {
    forall i :: 0 <= i < |events| ==> !events[i].Paused?
  }

  /** Dropping the first event keeps a sequence free of pauses. */
  lemma NoPauseTail(events: seq<Event>)
    requires |events| > 0 && NoPause(events)
    ensures NoPause(events[1..])
  {
    forall i | 0 <= i < |events[1..]|
      ensures !events[1..][i].Paused?
    {
      assert events[1..][i] == events[i + 1];
    }
  }

  /** One event other than a pause: the counter rises by the number of files it
      writes, and a write carries the new number. */
  lemma StepNumbering(s: State, e: Event, fmt: Float32 -> string)
    requires !e.Paused?
    ensures Step(s, e, fmt).state.counter == s.counter + |ToSeq(Step(s, e, fmt).write)|
    ensures Step(s, e, fmt).write.Some? ==>
      Step(s, e, fmt).write.value.seqNo == s.counter + 1 && Step(s, e, fmt).write.value.name == FileName(s.counter + 1)
  {
  }

  /** Without a pause the counter only grows: the k-th write of a run carries the
      number `counter + k`, and the files written have pairwise distinct names. */
  lemma {:induction false} RunWithoutPauseNumbering(s: State, events: seq<Event>, fmt: Float32 -> string)
    requires NoPause(events)
    ensures Run(s, events, fmt).state.counter == s.counter + |Run(s, events, fmt).writes|
    ensures NumberedFrom(Run(s, events, fmt).writes, s.counter)
    decreases |events|
  {
    if |events| > 0 {
      var r := Step(s, events[0], fmt);
      StepNumbering(s, events[0], fmt);
      NoPauseTail(events);
      var rest := Run(r.state, events[1..], fmt);
      RunWithoutPauseNumbering(r.state, events[1..], fmt);
      NumberedCons(r.write, rest.writes, s.counter);
    }
  }

  lemma RunWithoutPauseNamesDistinct(s: State, events: seq<Event>, fmt: Float32 -> string)
    requires NoPause(events)
    ensures DistinctNames(Run(s, events, fmt).writes)
  {
    RunWithoutPauseNumbering(s, events, fmt);
    NumberedDistinct(Run(s, events, fmt).writes, s.counter);
  }

  predicate OnlyFrames(events: seq<Event>) {
    forall i :: 0 <= i < |events| ==> events[i].PointCloudAvailable?
  }

  /** With the gate closed, any number of frames writes nothing and changes
      nothing: no number is consumed and the log is untouched. */
  lemma {:induction false} ClosedGateDropsFrames(s: State, events: seq<Event>, fmt: Float32 -> string)
    requires !s.isScanning && OnlyFrames(events)
    ensures Run(s, events, fmt) == Trace(s, [], [])
    decreases |events|
  {
    if |events| > 0 {
      assert OnlyFrames(events[1..]) by {
        forall i | 0 <= i < |events[1..]|
          ensures events[1..][i].PointCloudAvailable?
        {
          assert events[1..][i] == events[i + 1];
        }
      }
      ClosedGateDropsFrames(s, events[1..], fmt);
    }
  }

  /** A freshly created activity writes nothing before scanning is started: point
      clouds alone leave the `onCreate` state and its empty log untouched. */
  lemma IdleUntilStarted(frames: seq<Event>, fmt: Float32 -> string)
    requires OnlyFrames(frames)
    ensures Run(Initial, frames, fmt) == Trace(State(false, false, 0, ""), [], [])
  {
    ClosedGateDropsFrames(Initial, frames, fmt);
  }

  /** An event that writes nothing and hands nothing over only passes its state on. */
  lemma RunSilentStep(s: State, e: Event, rest: seq<Event>, fmt: Float32 -> string)
    requires Step(s, e, fmt).write.None? && Step(s, e, fmt).handoff.None?
    ensures Run(s, [e] + rest, fmt) == Run(Step(s, e, fmt).state, rest, fmt)
  {
    assert ([e] + rest)[1..] == rest;
    var t := Run(Step(s, e, fmt).state, rest, fmt);
    assert [] + t.writes == t.writes && [] + t.handoffs == t.handoffs;
  }

  /** A run of one event is that event's reaction. */
  lemma RunSingle(s: State, e: Event, fmt: Float32 -> string)
    ensures Run(s, [e], fmt).state == Step(s, e, fmt).state
    ensures Run(s, [e], fmt).writes == ToSeq(Step(s, e, fmt).write)
  {
    assert [e][1..] == [];
    var r := Step(s, e, fmt);
    assert ToSeq(r.write) + [] == ToSeq(r.write);
  }

  /** A single frame while scanning writes one file, named after the next number,
      which holds the frame's text encoding when the write completes. */
  lemma RunOneFrame(s: State, points: seq<Float32>, storage: Storage, dir: Directory,
                    fmt: Float32 -> string)
    requires s.isScanning
    ensures var t := Run(s, [PointCloudAvailable(points, storage)], fmt);
      && |t.writes| == 1
      && t.writes[0].name == FileName(s.counter + 1)
      && t.state.counter == s.counter + 1
      && (storage.outcome == Completed ==>
            && FileName(s.counter + 1) in Store(dir, t.writes)
            && Store(dir, t.writes)[FileName(s.counter + 1)] == TextFile(TextEncode(points, fmt)))
  {
    var r := OnPointCloudAvailable(s, points, storage, fmt);
    RunSingle(s, PointCloudAvailable(points, storage), fmt);
    StoreSingle(dir, r.write.value);
  }

  /** Numbering restarts after a pause: pausing, resuming and starting again, the
      next frame is written to `points1` once more, so a completed write replaces
      the earlier file of that name. */
  lemma PauseRestartsNames(s: State, points: seq<Float32>, storage: Storage, dir: Directory,
                           fmt: Float32 -> string)
    requires s.hasTango
    ensures var t := Run(s, [Paused(false), Resumed, StartPressed, PointCloudAvailable(points, storage)], fmt);
      && |t.writes| == 1
      && t.writes[0].name == FileName(1)
      && t.state.counter == 1
      && (storage.outcome == Completed ==>
            FileName(1) in Store(dir, t.writes) && Store(dir, t.writes)[FileName(1)] == TextFile(TextEncode(points, fmt)))
  {
    var frame := [PointCloudAvailable(points, storage)];
    var s1 := OnPause(s, false);
    var s2 := OnResume(s1);
    var s3 := StartScanning(s2);
    RunSilentStep(s2, StartPressed, frame, fmt);
    RunSilentStep(s1, Resumed, [StartPressed] + frame, fmt);
    RunSilentStep(s, Paused(false), [Resumed] + ([StartPressed] + frame), fmt);
    assert [Paused(false), Resumed, StartPressed, PointCloudAvailable(points, storage)]
        == [Paused(false)] + ([Resumed] + ([StartPressed] + frame));
    RunOneFrame(s3, points, storage, dir, fmt);
  }

  /** Finishing twice in a row: the second time changes no state and hands over the
      same message. */
  lemma FinishIdempotent(s: State)
    ensures FinishScanning(FinishScanning(s).state).state == FinishScanning(s).state
    ensures FinishScanning(FinishScanning(s).state).handoff == FinishScanning(s).handoff
  {
  }
}

=== FILE: writer.dfy ===
/** What both activities do once a frame has passed their gate: take the next
    sequence number, derive the file name from it, and stream the encoded buffer
    into that file. The disk itself is abstract: each write is an `Attempt` whose
    outcome the environment decides, and a directory is a map from file name to
    content. */
module Writer {
  import opened Optional
  import opened Decimal
  import opened Encoding

  const Prefix: string := "points"

  /** `"points" + n`: the prefix followed by the decimal counter, from which the
      counter can be read back. */
  function FileName(n: nat): (name: string)
    ensures |name| > |Prefix| && name[..|Prefix|] == Prefix
    ensures AllDigits(name[|Prefix|..]) && Value(name[|Prefix|..]) == n
  {
    var name := Prefix + FromNat(n);
    assert name[|Prefix|..] == FromNat(n);
    name
  }

  /** Distinct sequence numbers give distinct file names. */
  lemma FileNameInjective(a: nat, b: nat)
    ensures FileName(a) == FileName(b) <==> a == b
  {
    if FileName(a) == FileName(b) {
      assert FileName(a)[|Prefix|..] == FileName(b)[|Prefix|..];
    }
  }

  datatype Format = Text | Binary

  datatype Payload = TextFile(text: string) | BinaryFile(bytes: seq<bv8>)

  /** What became of one write. Only opening the destination can throw on the text
      path (`PrintWriter` records later I/O errors instead of throwing), and a
      failed open leaves the directory as it was. */
  datatype Outcome = Completed | OpenFailed

  /** One accepted frame: its sequence number, its file name, the content streamed
      into the file, and whether the file was written. */
  datatype Attempt = Attempt(seqNo: nat, name: string, payload: Payload, outcome: Outcome)

  function Encode(format: Format, points: seq<Float32>, fmt: Float32 -> string): Payload
  {
    match format
    case Text => TextFile(TextEncode(points, fmt))
    case Binary => BinaryFile(BinaryEncode(points))
  }

  /** `writePointCloudTxt` / `writePointCloudBin` after the counter was `counter`:
      the attempt carries the incremented number, whatever the outcome. */
  function Write(counter: nat, points: seq<Float32>, format: Format, fmt: Float32 -> string,
                 outcome: Outcome): (a: Attempt)
    ensures a.seqNo == counter + 1 && a.name == FileName(a.seqNo)
    ensures a.outcome == outcome
    ensures format == Binary ==> a.payload.BinaryFile? && |a.payload.bytes| == 4 * |points|
    ensures format == Text ==> a.payload.TextFile? && a.payload.text == TextEncode(points, fmt)
    ensures format == Binary ==> DecodeBinary(a.payload.bytes) == CanonicalBits(points)
  {
    BinaryRoundTrip(points);
    Attempt(counter + 1, FileName(counter + 1), Encode(format, points, fmt), outcome)
  }

  type Directory = map<string, Payload>

  /** The effect of one attempt on the output directory: a completed write creates
      or truncates-and-fills the named file; a failed open changes nothing. */
  function Apply(dir: Directory, a: Attempt): (r: Directory)
    ensures a.outcome == Completed ==> a.name in r && r[a.name] == a.payload
    ensures a.outcome == OpenFailed ==> r == dir
    ensures forall name :: name != a.name ==> (name in r <==> name in dir) && (name in dir ==> r[name] == dir[name])
  {
    if a.outcome == Completed then dir[a.name := a.payload] else dir
  }

  /** The effect of a series of attempts, in order. */
  function Store(dir: Directory, attempts: seq<Attempt>): Directory
    decreases |attempts|
  {
    if |attempts| == 0 then dir else Store(Apply(dir, attempts[0]), attempts[1..])
  }

  /** Storing a single write is applying it. */
  lemma StoreSingle(dir: Directory, a: Attempt)
    ensures Store(dir, [a]) == Apply(dir, a)
  {
    assert [a][1..] == [];
  }

  function Names(attempts: seq<Attempt>): set<string>
  {
    set i | 0 <= i < |attempts| :: attempts[i].name
  }

  predicate DistinctNames(attempts: seq<Attempt>) {
    forall i, j :: 0 <= i < j < |attempts| ==> attempts[i].name != attempts[j].name
  }

  /** With distinct names nothing is overwritten: every completed attempt's file
      holds exactly its payload, and files no attempt names are untouched. */
  lemma {:induction false} StoreDistinct(dir: Directory, attempts: seq<Attempt>)
    requires DistinctNames(attempts)
    ensures forall i :: 0 <= i < |attempts| && attempts[i].outcome == Completed ==>
      attempts[i].name in Store(dir, attempts) && Store(dir, attempts)[attempts[i].name] == attempts[i].payload
    ensures forall name :: name !in Names(attempts) ==>
      (name in Store(dir, attempts) <==> name in dir) &&
      (name in dir ==> Store(dir, attempts)[name] == dir[name])
    decreases |attempts|
  {
    if |attempts| > 0 {
      var a := attempts[0];
      var rest := attempts[1..];
      var d1 := Apply(dir, a);
      var r := Store(dir, attempts);
      assert r == Store(d1, rest);
      StoreDistinct(d1, rest);
      forall i | 0 <= i < |attempts| && attempts[i].outcome == Completed
        ensures attempts[i].name in r && r[attempts[i].name] == attempts[i].payload
      {
        if i > 0 {
          assert attempts[i] == rest[i - 1];
        }
      }
      forall name | name !in Names(attempts)
        ensures (name in r <==> name in dir) && (name in dir ==> r[name] == dir[name])
      {
        assert name != a.name by {
          assert attempts[0].name in Names(attempts);
        }
      }
    }
  }

  /** The writes `w` carry the numbers `c + 1`, `c + 2`, ... and the file names
      made from them. */
  predicate NumberedFrom(w: seq<Attempt>, c: nat) {
    forall i :: 0 <= i < |w| ==> w[i].seqNo == c + 1 + i && w[i].name == FileName(w[i].seqNo)
  }

  /** A write numbered `c + 1` in front of writes numbered from `c + 2` on. */
  lemma NumberedPrepend(a: Attempt, rest: seq<Attempt>, c: nat)
    requires a.seqNo == c + 1 && a.name == FileName(c + 1)
    requires NumberedFrom(rest, c + 1)
    ensures NumberedFrom([a] + rest, c)
  {
    var w := [a] + rest;
    forall i | 0 <= i < |w|
      ensures w[i].seqNo == c + 1 + i && w[i].name == FileName(w[i].seqNo)
    {
      if i > 0 {
        assert w[i] == rest[i - 1];
      }
    }
  }

  /** The writes of one event, if any, in front of the writes of the rest. */
  lemma NumberedCons(a: Option<Attempt>, rest: seq<Attempt>, c: nat)
    requires a.Some? ==> a.value.seqNo == c + 1 && a.value.name == FileName(c + 1)
    requires NumberedFrom(rest, c + |ToSeq(a)|)
    ensures NumberedFrom(ToSeq(a) + rest, c)
  {
    if a.Some? {
      NumberedPrepend(a.value, rest, c);
    } else {
      assert ToSeq(a) + rest == rest;
    }
  }

  /** Writes numbered consecutively have pairwise distinct file names. */
  lemma NumberedDistinct(w: seq<Attempt>, c: nat)
    requires NumberedFrom(w, c)
    ensures DistinctNames(w)
  {
    forall i, j | 0 <= i < j < |w|
      ensures w[i].name != w[j].name
    {
      FileNameInjective(c + 1 + i, c + 1 + j);
    }
  }
}
